=== FILE: README.md ===
# ScrapeCheckiO solution exporter, modelled in Dafny

`scrape_checkio.py` logs into CheckiO with a Selenium browser. It lists the
user's completed missions, grouped by section. It then fetches each mission's
saved solution from the code editor and writes it to `<section folder>/<slug>.py`.
This project models the rule-bearing part of that script, with the browser,
the clock and the disk replaced by values:

- **UrlPatterns** (`url_patterns.dfy`): `USERNAME_PATTERN` and
  `MISSION_NAME_PATTERN` under `re.match`. Each is a prefix, in which `.` is a
  wildcard for any character but a newline, followed by the lazy group up to
  the first `/`. `get_username` and the slug extraction of `get_missions` use them.
- **Catalog** (`catalog.dfy`): the nested loops of `get_missions`. The page is a
  sequence of rendered sections whose elements may be missing. The result is an
  insertion-ordered dictionary, because Python dicts keep insertion order and
  assigning to an existing key keeps its position. A missing element makes the
  result the empty dictionary. A link the slug pattern does not match raises an
  uncaught `AttributeError`, which is `None` here.
- **Fetcher** (`fetcher.dfy`): the retry loop of `get_solution`. The editor is
  the outcome each of the `PAGE_RETRIES + 1 = 4` possible reads would give:
  stale, or the line texts. Sleeps are counted.
- **FileSink** (`file_sink.dfy`): `write_solution_to_file` as a function of the
  file store. The store maps a path to the file's text. Writing prints each line
  followed by `\n`, and reading back splits at `\n`.
- **Orchestrator** (`orchestrator.dfy`): the folder-name filter, `download_section`
  and the section loop of the main program (lines 278-284), as functions of the
  file system (files, created folders, working directory).
- **Scraper** (`scraper.dfy`): class `FileSystem` holds that state. Its methods
  (`CreateAndSwitch`, `WriteSolution`, `DownloadSection`, `ExportSection`, `Export`) follow the
  source statement by statement, including the line-by-line write and the error
  lists. Each method is proved to produce exactly the state and errors that the
  specification functions describe.

Three behaviours of the code are worth stating:

- For a section without a name, the main loop reports a header line
  `Unknown section containing:` and then one `-- <title>` line per mission
  (`UnknownSectionReported`, `ExportScenario`).
- A page without sections gives the empty dictionary, just as a failed element
  lookup inside a section does; `get_missions` has no other way to report that
  nothing was found.
- The idempotence check compares the file's lines literally, header and
  timestamp included. So the same download captured at another time is always
  written again. This is kept as written (`WriteStepNewStamp`).

`download_section` iterates over the global `mission_list` rather than its
`missions` parameter. The main loop binds that global to the very list it
passes as the argument. The model therefore uses the argument.

## Model

| member | source | states |
|---|---|---|
| `UrlPatterns.Segment` | scrape_checkio.py:11-12 | the lazy group `(.*?)/` captures a prefix of the rest that is followed by `/` and contains no `/` and no newline |
| `UrlPatterns.SegmentNone` | scrape_checkio.py:11-12 | there is no match exactly when every `/` of the rest has a newline before it |
| `UrlPatterns.SegmentOf` | scrape_checkio.py:11-12 | the group captures exactly the text before the first `/` |
| `UrlPatterns.Extract` | scrape_checkio.py:11-12 | a match requires the prefix to match, and the captured text sits right after the prefix and is followed by `/` |
| `UrlPatterns.ExtractOf` | scrape_checkio.py:11-12 | round trip: prefix + segment + `/` + anything extracts the segment |
| `UrlPatterns.GetUsername` | scrape_checkio.py:60-76 | the username read from the current URL, `None` when the pattern does not match; a username never contains `/` or a newline |
| `UrlPatterns.LoginPageHasNoUser` | scrape_checkio.py:72-76 | a browser left on the login page yields no username |
| `UrlPatterns.UsernameOfMissionsPage` | scrape_checkio.py:11-16 | the listing URL built from a username yields that username |
| `UrlPatterns.MissionName` | scrape_checkio.py:107-108 | the slug taken from a mission link contains no `/` or newline, `None` when the link does not match |
| `UrlPatterns.MissionNameOfSolutionPage` | scrape_checkio.py:12-17 | the solution URL built from a slug yields that slug |
| `UrlPatterns.DotIsWildcard` | scrape_checkio.py:11 | the unescaped `.` in `checkio.org` accepts any non-newline character in its place |
| `Catalog.Put` | scrape_checkio.py:112 | after `section_list[title] = task_list` the key maps to the new list and every other key keeps its value |
| `Catalog.PutKeys` | scrape_checkio.py:112 | assigning to a present key keeps the key order; a new key is appended |
| `Catalog.PutDistinct` | scrape_checkio.py:112 | assignment keeps the keys distinct |
| `Catalog.ParseTask` | scrape_checkio.py:103-110 | a mission block parses exactly when its `img` and `a` exist and the href matches, giving the image title and the slug |
| `Catalog.ParseTasks` | scrape_checkio.py:102-111 | the inner loop over a section's blocks: the first block with a missing element or an unmatched link ends it with that exception; its result is described by `ParseTasksInOrder` |
| `Catalog.ParseTasksInOrder` | scrape_checkio.py:102-111 | a section's mission list has one mission per block, in page order |
| `Catalog.Collect` | scrape_checkio.py:96-112 | the outer loop over the sections, assigning each header its mission list; its result is described by the `Collect…` lemmas below |
| `Catalog.MissionsOf` | scrape_checkio.py:79-116 | what `get_missions` returns: the dictionary, `{}` after a `NoSuchElementException`, `None` for the escaping `AttributeError` |
| `Catalog.CollectDistinct` | scrape_checkio.py:96-112 | the dictionary has no repeated header |
| `Catalog.CollectKeySet` | scrape_checkio.py:96-112 | the keys are exactly the headers of the sections |
| `Catalog.CollectKeepsOrder` | scrape_checkio.py:96-112 | keys present before the fold keep their positions |
| `Catalog.CollectFirstAppearance` | scrape_checkio.py:96-112 | keys the fold adds are new and come in the order in which their headers first appear on the page |
| `Catalog.CollectLastWins` | scrape_checkio.py:96-112 | for a repeated header, the last section with that header supplies the value |
| `Catalog.CollectAbsent` | scrape_checkio.py:96-112 | a header no section carries keeps its earlier value |
| `Catalog.ParseTasksParsedIff` | scrape_checkio.py:102-111 | the inner loop completes exactly when every block has its `img` and `a` and every href matches |
| `Catalog.CollectParsedIff` | scrape_checkio.py:96-112 | the outer loop completes exactly when every section has its header and every block of it parses |
| `Catalog.MissionsOfKeys` | scrape_checkio.py:96-116 | the returned dictionary has distinct keys; for a page whose elements all exist and whose links all match it is returned and keyed by exactly the page's headers; otherwise it is empty, or the `AttributeError` escapes |
| `Catalog.MissionsOfOrder` | scrape_checkio.py:79-116 | the returned dictionary lists the sections in the order in which their headers first appear on the page |
| `Catalog.GetMissions` | scrape_checkio.py:79-116 | the nested loops return the fold of the sections, `{}` on a missing element, and raise on an unmatched link |
| `Fetcher.FirstRead` | scrape_checkio.py:137-149 | the download is `None` exactly when every read was stale |
| `Fetcher.FirstReadAfterStale` | scrape_checkio.py:138-142 | stale reads are skipped; the first rendered read's texts are returned |
| `Fetcher.RetryScenarios` | scrape_checkio.py:137-149 | a page rendered on the third read gives its lines after 3 attempts and 2 sleeps; four stale reads give `None` after 4 attempts and 4 sleeps |
| `Fetcher.GetSolution` | scrape_checkio.py:119-149 | between 1 and 4 attempts; all attempts before the last were stale; on success the last read's texts are returned after one sleep per stale attempt; on `None` all 4 attempts were made and 4 sleeps taken |
| `FileSink.SplitLines` | scrape_checkio.py:189 | no line read back from a file contains a line break |
| `FileSink.JoinLines` | scrape_checkio.py:196-198 | printing lines leaves an empty file exactly when there are no lines |
| `FileSink.JoinAppend` | scrape_checkio.py:197-198 | each `print` appends its line and a newline |
| `FileSink.SplitJoin` | scrape_checkio.py:189-198 | reading back what was printed gives the printed lines, if none contains a newline |
| `FileSink.JoinSplit` | scrape_checkio.py:189-198 | text ending in a newline is what printing its lines produces |
| `FileSink.Header` | scrape_checkio.py:181-182 | the first line of a solution file, naming the mission and the capture time; described by the two lemmas below |
| `FileSink.HeaderNamesMission` | scrape_checkio.py:182 | the header line contains the mission title after `# "` |
| `FileSink.HeaderStampDiffers` | scrape_checkio.py:181-182 | headers with different capture times differ |
| `FileSink.Compose` | scrape_checkio.py:182-183 | the content has one line more than the download |
| `FileSink.FileName` | scrape_checkio.py:184 | the file of a mission is its slug with `.py`; `WriteStepFrame` states that no other file changes |
| `FileSink.WriteStep` | scrape_checkio.py:168-202 | IOError for a falsy download (`None` or `[]`) exactly; the store is unchanged when nothing is written |
| `FileSink.WriteStepReadBack` | scrape_checkio.py:181-198 | after a call that did not raise, `<slug>.py` reads back as the header followed by the downloaded lines in order |
| `FileSink.WriteStepIdempotent` | scrape_checkio.py:186-190 | writing the same content again is skipped: store unchanged and nothing raised |
| `FileSink.WriteStepSkipsEqual` | scrape_checkio.py:186-190 | any existing file whose lines equal the content is left alone and nothing is raised, whether or not it ends in a line break |
| `FileSink.WriteStepNewStamp` | scrape_checkio.py:181-190 | the same download at another capture time is written again |
| `FileSink.WriteStepFailureRemoves` | scrape_checkio.py:195-202 | a failed write removes the file, earlier version included, and keeps every other file |
| `FileSink.WriteStepFrame` | scrape_checkio.py:184-202 | no file other than `<slug>.py` in the current folder changes |
| `Orchestrator.FolderName` | scrape_checkio.py:218 | the folder name has only letters and digits, is a subsequence of the section name and no longer than it |
| `Orchestrator.FolderNameOfAlnum` | scrape_checkio.py:218 | a name of letters and digits is kept whole |
| `Orchestrator.FolderNameIdempotent` | scrape_checkio.py:218 | filtering again changes nothing |
| `Orchestrator.FolderNameConcat` | scrape_checkio.py:218 | the filter works character by character |
| `Orchestrator.FolderNameOfPunctuation` | scrape_checkio.py:218 | a name without letters or digits gives an empty folder name |
| `Orchestrator.FolderCreated` | scrape_checkio.py:152-165 | whether `create_and_switch_to_dir` succeeds: never for an empty name, otherwise as the system allows |
| `Orchestrator.SectionRun` | scrape_checkio.py:205-232 | `download_section` returns to the folder it started in |
| `Orchestrator.SectionFolderFailure` | scrape_checkio.py:217-222 | when the folder cannot be made: exactly one error naming the section, and nothing fetched or written |
| `Orchestrator.PunctuationSectionFails` | scrape_checkio.py:218-222 | a named section without letters or digits gets that one error, since `os.makedirs('')` fails |
| `Orchestrator.WriteAll` | scrape_checkio.py:224-229 | the mission loop: the files after it, and one `"section: title"` error per mission whose write raised, in mission order; pinned down by `WriteAllStep` and `WriteAllCount` below |
| `Orchestrator.WriteAllErrors` | scrape_checkio.py:224-229 | never more errors than missions, each `"section: title"` for one of the section's missions |
| `Orchestrator.WriteAllNoFailures` | scrape_checkio.py:224-229 | when every download succeeds and no write fails, there are no errors |
| `Orchestrator.WriteAllReportsFalsy` | scrape_checkio.py:224-229 | a mission whose download is falsy always has its `"section: title"` error in the list |
| `Orchestrator.WriteAllNothingDownloaded` | scrape_checkio.py:224-229 | when no download succeeds, no file changes and the errors are exactly one per mission, in mission order |
| `Orchestrator.WriteAllExtends` | scrape_checkio.py:224-229 | each further mission only appends to the errors of the missions before it |
| `Orchestrator.WriteAllErrorsInOrder` | scrape_checkio.py:224-229 | errors come in mission order: the errors of the first `k` missions begin the list |
| `Orchestrator.WriteAllReportsRaised` | scrape_checkio.py:224-229 | every mission whose call raised, a falsy download or a failed print (re-raised at lines 199-202), has its `"section: title"` error in the list |
| `Orchestrator.WriteAllNoRaise` | scrape_checkio.py:224-229 | when no call raises, skipped equal files included, the section reports no error |
| `Orchestrator.WriteAllStep` | scrape_checkio.py:224-229 | each mission adds its `"section: title"` error to the errors of the missions before it exactly when its call raised, and adds nothing otherwise |
| `Orchestrator.WriteAllCount` | scrape_checkio.py:224-229 | the number of errors equals the number of missions whose call raised |
| `Orchestrator.WriteAllFrame` | scrape_checkio.py:224-229 | no file outside the section's folder changes |
| `Orchestrator.WriteAllNewFiles` | scrape_checkio.py:224-229 | every new file is `<slug>.py` of one of the section's missions |
| `Orchestrator.UnknownLines` | scrape_checkio.py:279-282 | the header line, then one `-- title` line per mission, in order |
| `Orchestrator.ExportRun` | scrape_checkio.py:278-284 | the section loop: unnamed sections add their report lines, named ones run `download_section` and add its errors; described by the lemmas below |
| `Orchestrator.UnknownSectionReported` | scrape_checkio.py:278-284 | a section without a name appends exactly the header line and one `-- title` line per mission after the earlier errors, and changes nothing on disk |
| `Orchestrator.ExportKeepsCwd` | scrape_checkio.py:278-284 | the section loop ends in the folder it started in |
| `Orchestrator.ExportNewFiles` | scrape_checkio.py:278-284 | every new file is `<folder>/<slug>.py` for a mission of a section with a name |
| `Orchestrator.ScenarioBasics` | scrape_checkio.py:205-232 | the "Basics" section with one fetched mission creates `Basics/add.py` and reports nothing |
| `Orchestrator.ExportScenario` | scrape_checkio.py:276-284 | the end-to-end run writes `Basics/add.py` (header plus the two lines) and reports the unknown section and "Mystery" |
| `Scraper.FileSystem.CreateAndSwitch` | scrape_checkio.py:152-165 | fails exactly for an empty name or a refused folder; on success the folder exists and is the working directory, otherwise nothing changes |
| `Scraper.FileSystem.WriteSolution` | scrape_checkio.py:168-202 | the file store and outcome are those of `WriteStep` (the print loop keeps the file equal to the lines printed so far) |
| `Scraper.FileSystem.DownloadSection` | scrape_checkio.py:205-232 | the new state and the errors are those of `SectionRun` |
| `Scraper.ReportUnknown` | scrape_checkio.py:279-282 | the inner loop builds exactly the header line and one `-- title` line per mission |
| `Scraper.FileSystem.ExportSection` | scrape_checkio.py:279-284 | one turn of the section loop: an unnamed section leaves the state alone and yields its report lines, a named one yields the state and errors of `SectionRun` |
| `Scraper.FileSystem.Export` | scrape_checkio.py:276-284 | the new state and the error list are those of `ExportRun` |

## Left out

- Logging in (`get_browser`, lines 24-57): Selenium driving, cookie injection and the interactive `input()` prompt.
- `get_args`, `sys.exit`, the `VERBOSE` flag and every `print`, including the "not logged in" message of `get_username` and the final report. These are command-line plumbing and console output.
- The main program before the section loop (lines 260-276): the destination folder, login, and the exit when no username is found.
- `time.sleep` is a counter, and `datetime.now().strftime('%c')` is the `stamp` parameter.
- The browser is replaced by values: four read outcomes per mission, and a page of sections whose elements may be missing. A `None` from `get_attribute` and exceptions other than `StaleElementReferenceException`, `NoSuchElementException` and the regex `AttributeError` are not modelled.
- Regular expressions are modelled only as needed for the two fixed patterns.
- `str.splitlines` is modelled as splitting at `\n` only. Other line-boundary characters (`\r`, `\x0b`, `\x0c`, …) are not modelled.
- `str.isalnum` is modelled on ASCII letters and digits only. Python also accepts other Unicode letters and digits.
- The real behaviour of `os.makedirs`, `os.chdir` and `os.remove`:
  - Folder creation is an abstract success flag. The one failure the model derives is the empty name. A `false` flag stands for any `OSError` from `os.makedirs` or `os.chdir` (a file in the way, a refused permission): `create_and_switch_to_dir` either converts it or lets it through, and `download_section` catches it as `IOError` either way.
  - A failing `os.remove` is not modelled.
- A file present in the store is always readable. An `OSError` or a decoding error on reading the existing file is not modelled.
- Text written before a failing `print` is not modelled: the file is removed right afterwards.
- The uncaught `AttributeError` from an unmatched mission link ends `get_missions` with `None`. What the crash does to the rest of the run is not modelled.

=== FILE: catalog.dfy ===
/**
 * `get_missions`: fold the rendered sections of the completed-missions page
 * into a dictionary from section header to the section's missions.
 *
 * The page is replaced by the elements each lookup finds. A Python dict keeps
 * insertion order and an assignment to a present key keeps that key's
 * position, so the dictionary is an association list with distinct keys.
 */
module Catalog {
  import opened Wrappers
  import opened UrlPatterns

  /** A mission as listed: its title and the slug of its URL. */
  datatype Mission = Mission(title: string, urlName: string)

  /** A `block_progress_main` element: its `img` title and its `a` href, `None` if the element is missing. */
  datatype RenderedTask = RenderedTask(img: Option<string>, anchor: Option<string>)

  /** A `section` element: its `section-header` text (`None` if missing) and its mission blocks. */
  datatype RenderedSection = RenderedSection(header: Option<string>, tasks: seq<RenderedTask>)

  /** The outcome of reading part of the page, with the two exceptions the reads can raise. */
  datatype Parse<T> =
    | Parsed(value: T)
    | ElementMissing   // NoSuchElementException, caught by get_missions
    | HrefMismatch     // AttributeError from a link the slug pattern does not match, not caught

  /** An insertion-ordered dictionary from section header to missions. */
  type Dict = seq<(string, seq<Mission>)>

  function Keys(d: Dict): (ks: seq<string>)
    ensures |ks| == |d| && forall i :: 0 <= i < |d| ==> ks[i] == d[i].0
  {
    if d == [] then [] else [d[0].0] + Keys(d[1..])
  }

  predicate Distinct(ks: seq<string>) {
    forall i, j :: 0 <= i < j < |ks| ==> ks[i] != ks[j]
  }

  /** `d.get(k)`. */
  function Lookup(d: Dict, k: string): (r: Option<seq<Mission>>)
    ensures r.None? <==> k !in Keys(d)
  {
    if d == [] then None
    else if d[0].0 == k then Some(d[0].1)
    else Lookup(d[1..], k)
  }

  /** `d[k] = v`: replace the value in place if `k` is present, else append. */
  function Put(d: Dict, k: string, v: seq<Mission>): (r: Dict)
    ensures Lookup(r, k) == Some(v)
    ensures forall k' :: k' != k ==> Lookup(r, k') == Lookup(d, k')
  {
    if d == [] then [(k, v)]
    else if d[0].0 == k then [(k, v)] + d[1..]
    else [d[0]] + Put(d[1..], k, v)
  }

  /** Assignment to a present key keeps its position; a new key goes last. */
  lemma {:induction false} PutKeys(d: Dict, k: string, v: seq<Mission>)
    ensures k in Keys(d) ==> Keys(Put(d, k, v)) == Keys(d)
    ensures k !in Keys(d) ==> Keys(Put(d, k, v)) == Keys(d) + [k]
  {
    if d != [] && d[0].0 != k {
      PutKeys(d[1..], k, v);
      assert Keys(d) == [d[0].0] + Keys(d[1..]);
      assert Keys(Put(d, k, v)) == [d[0].0] + Keys(Put(d[1..], k, v));
    }
  }

  /** Assignment keeps the keys distinct. */
  lemma PutDistinct(d: Dict, k: string, v: seq<Mission>)
    requires Distinct(Keys(d))
    ensures Distinct(Keys(Put(d, k, v)))
  {
    PutKeys(d, k, v);
  }

  /** One mission block: title from the `img`, then slug from the `a` href. */
  function ParseTask(t: RenderedTask): (r: Parse<Mission>)
    ensures r.Parsed? <==> t.img.Some? && t.anchor.Some? && MissionName(t.anchor.value).Some?
    ensures r.Parsed? ==> r.value == Mission(t.img.value, MissionName(t.anchor.value).value)
  {
    match t.img
    case None => ElementMissing
    case Some(title) =>
      match t.anchor
      case None => ElementMissing
      case Some(href) =>
        match MissionName(href)
        case None => HrefMismatch
        case Some(code) => Parsed(Mission(title, code))
  }

  /** The inner loop: `acc` is `task_list` so far; the first failing block ends it. */
  function ParseTasks(ts: seq<RenderedTask>, acc: seq<Mission>): (r: Parse<seq<Mission>>)
    decreases |ts|
  {
    if ts == [] then Parsed(acc)
    else match ParseTask(ts[0])
      case Parsed(m) => ParseTasks(ts[1..], acc + [m])
      case ElementMissing => ElementMissing
      case HrefMismatch => HrefMismatch
  }

  /** The outer loop: `d` is `section_list` so far; the first failing section ends it. */
  function Collect(page: seq<RenderedSection>, d: Dict): (r: Parse<Dict>)
    decreases |page|
  {
    if page == [] then Parsed(d)
    else match page[0].header
      case None => ElementMissing
      case Some(title) =>
        match ParseTasks(page[0].tasks, [])
        case Parsed(ms) => Collect(page[1..], Put(d, title, ms))
        case ElementMissing => ElementMissing
        case HrefMismatch => HrefMismatch
  }

  /** What `get_missions` returns; `None` when the AttributeError escapes it. */
  function MissionsOf(page: seq<RenderedSection>): Option<Dict> {
    match Collect(page, [])
    case Parsed(d) => Some(d)
    case ElementMissing => Some([])
    case HrefMismatch => None
  }

  /** A section's missions keep page order, one per block. */
  lemma {:induction false} ParseTasksInOrder(ts: seq<RenderedTask>, acc: seq<Mission>)
    requires ParseTasks(ts, acc).Parsed?
    ensures |ParseTasks(ts, acc).value| == |acc| + |ts|
    ensures ParseTasks(ts, acc).value[..|acc|] == acc
    ensures forall k :: 0 <= k < |ts| ==> ParseTask(ts[k]) == Parsed(ParseTasks(ts, acc).value[|acc| + k])
  {
    if ts != [] {
      var m := ParseTask(ts[0]).value;
      ParseTasksInOrder(ts[1..], acc + [m]);
      var r := ParseTasks(ts, acc).value;
      assert r == ParseTasks(ts[1..], acc + [m]).value;
      assert r[..|acc| + 1][..|acc|] == r[..|acc|];
      forall k | 0 <= k < |ts| ensures ParseTask(ts[k]) == Parsed(r[|acc| + k]) {
        if k > 0 {
          assert ts[k] == ts[1..][k - 1];
        }
      }
    }
  }

  /** The set of headers of the sections. */
  function Headers(page: seq<RenderedSection>): set<string> {
    set i | 0 <= i < |page| && page[i].header.Some? :: page[i].header.value
  }

  /** The set of keys of a dictionary. */
  function KeySet(d: Dict): set<string> {
    set k | k in Keys(d)
  }

  /** One turn of the outer loop, for a fold that completes. */
  lemma CollectStep(page: seq<RenderedSection>, d: Dict)
    requires page != [] && Collect(page, d).Parsed?
    ensures page[0].header.Some? && ParseTasks(page[0].tasks, []).Parsed?
    ensures Collect(page, d) == Collect(page[1..], Put(d, page[0].header.value, ParseTasks(page[0].tasks, []).value))
  {
  }

  lemma HeadersCons(page: seq<RenderedSection>)
    requires page != [] && page[0].header.Some?
    ensures Headers(page) == {page[0].header.value} + Headers(page[1..])
  {
    forall h | h in Headers(page) ensures h in {page[0].header.value} + Headers(page[1..]) {
      var i :| 0 <= i < |page| && page[i].header.Some? && page[i].header.value == h;
      if i > 0 { assert page[1..][i - 1] == page[i]; }
    }
    forall h | h in Headers(page[1..]) ensures h in Headers(page) {
      var i :| 0 <= i < |page[1..]| && page[1..][i].header.Some? && page[1..][i].header.value == h;
      assert page[i + 1] == page[1..][i];
    }
  }

  lemma PutKeySet(d: Dict, k: string, v: seq<Mission>)
    ensures KeySet(Put(d, k, v)) == KeySet(d) + {k}
  {
    PutKeys(d, k, v);
  }

  /** One key per distinct header: the fold keeps the keys distinct. */
  lemma {:induction false} CollectDistinct(page: seq<RenderedSection>, d: Dict)
    requires Distinct(Keys(d))
    requires Collect(page, d).Parsed?
    ensures Distinct(Keys(Collect(page, d).value))
  {
    if page != [] {
      CollectStep(page, d);
      var d' := Put(d, page[0].header.value, ParseTasks(page[0].tasks, []).value);
      PutDistinct(d, page[0].header.value, ParseTasks(page[0].tasks, []).value);
      CollectDistinct(page[1..], d');
    }
  }

  /** The keys after the fold are the keys before it and every header of the page. */
  lemma {:induction false} CollectKeySet(page: seq<RenderedSection>, d: Dict)
    requires Collect(page, d).Parsed?
    ensures KeySet(Collect(page, d).value) == KeySet(d) + Headers(page)
  {
    if page != [] {
      CollectStep(page, d);
      var d' := Put(d, page[0].header.value, ParseTasks(page[0].tasks, []).value);
      PutKeySet(d, page[0].header.value, ParseTasks(page[0].tasks, []).value);
      HeadersCons(page);
      CollectKeySet(page[1..], d');
    }
  }

  /** Keys present before the fold keep their positions; new headers follow them. */
  lemma {:induction false} CollectKeepsOrder(page: seq<RenderedSection>, d: Dict)
    requires Collect(page, d).Parsed?
    ensures |Collect(page, d).value| >= |d| && Keys(Collect(page, d).value)[..|d|] == Keys(d)
  {
    if page != [] {
      CollectStep(page, d);
      var d' := Put(d, page[0].header.value, ParseTasks(page[0].tasks, []).value);
      PutKeys(d, page[0].header.value, ParseTasks(page[0].tasks, []).value);
      CollectKeepsOrder(page[1..], d');
      var ks := Keys(Collect(page, d).value);
      assert Keys(d')[..|d|] == Keys(d);
      assert ks[..|d|] == ks[..|d'|][..|d|];
    }
  }

  /** A repeated header: the last section with that header supplies the value. */
  lemma {:induction false} CollectLastWins(page: seq<RenderedSection>, d: Dict, h: string, i: nat)
    requires Collect(page, d).Parsed?
    requires i < |page| && page[i].header == Some(h)
    requires forall j :: i < j < |page| ==> page[j].header != Some(h)
    ensures ParseTasks(page[i].tasks, []).Parsed?
    ensures Lookup(Collect(page, d).value, h) == Some(ParseTasks(page[i].tasks, []).value)
  {
    CollectStep(page, d);
    var d' := Put(d, page[0].header.value, ParseTasks(page[0].tasks, []).value);
    forall j | 0 <= j < |page[1..]| ensures page[1..][j] == page[j + 1] { }
    if i == 0 {
      CollectAbsent(page[1..], d', h);
    } else {
      CollectLastWins(page[1..], d', h, i - 1);
    }
  }

  /** A header no section carries keeps the value it had before the fold. */
  lemma {:induction false} CollectAbsent(page: seq<RenderedSection>, d: Dict, h: string)
    requires Collect(page, d).Parsed?
    requires forall j :: 0 <= j < |page| ==> page[j].header != Some(h)
    ensures Lookup(Collect(page, d).value, h) == Lookup(d, h)
  {
    if page != [] {
      CollectStep(page, d);
      var d' := Put(d, page[0].header.value, ParseTasks(page[0].tasks, []).value);
      forall j | 0 <= j < |page[1..]| ensures page[1..][j] == page[j + 1] { }
      CollectAbsent(page[1..], d', h);
    }
  }


  /** Some section headed `x` comes before every section headed `y`. */
  predicate OccursBefore(page: seq<RenderedSection>, x: string, y: string) {
    exists p :: 0 <= p < |page| && page[p].header == Some(x) &&
      forall q :: 0 <= q <= p ==> page[q].header != Some(y)
  }

  lemma OccursBeforeCons(page: seq<RenderedSection>, x: string, y: string)
    requires page != [] && page[0].header != Some(y)
    requires page[0].header == Some(x) || OccursBefore(page[1..], x, y)
    ensures OccursBefore(page, x, y)
  {
    if page[0].header != Some(x) {
      var p :| 0 <= p < |page[1..]| && page[1..][p].header == Some(x) &&
        forall q :: 0 <= q <= p ==> page[1..][q].header != Some(y);
      assert page[p + 1] == page[1..][p];
      forall q | 0 <= q <= p + 1 ensures page[q].header != Some(y) {
        if q > 0 { assert page[q] == page[1..][q - 1]; }
      }
    }
  }

  /**
   * Keys the fold adds are new, and they come in the order in which their
   * headers first appear on the page.
   */
  lemma {:induction false} CollectFirstAppearance(page: seq<RenderedSection>, d: Dict)
    requires Collect(page, d).Parsed?
    ensures |Keys(Collect(page, d).value)| >= |d|
    ensures forall b :: |d| <= b < |Keys(Collect(page, d).value)| ==> Keys(Collect(page, d).value)[b] !in Keys(d)
    ensures forall a, b :: |d| <= a < b < |Keys(Collect(page, d).value)| ==>
      OccursBefore(page, Keys(Collect(page, d).value)[a], Keys(Collect(page, d).value)[b])
  {
    CollectKeepsOrder(page, d);
    if page != [] {
      CollectStep(page, d);
      var h := page[0].header.value;
      var d' := Put(d, h, ParseTasks(page[0].tasks, []).value);
      PutKeys(d, h, ParseTasks(page[0].tasks, []).value);
      CollectFirstAppearance(page[1..], d');
      CollectKeepsOrder(page[1..], d');
      var ks := Keys(Collect(page, d).value);
      assert ks == Keys(Collect(page[1..], d').value);
      assert ks[..|d'|] == Keys(d');
      forall b | |d| <= b < |ks| ensures ks[b] !in Keys(d) && (b >= |d'| ==> ks[b] != h) {
        if b < |d'| {
          assert ks[b] == Keys(d')[b];
          assert Keys(d') == Keys(d) + [h];
        }
      }
      forall a, b | |d| <= a < b < |ks| ensures OccursBefore(page, ks[a], ks[b]) {
        if a >= |d'| {
          OccursBeforeCons(page, ks[a], ks[b]);
        } else {
          assert Keys(d') == Keys(d) + [h] && ks[a] == Keys(d')[a];
          OccursBeforeCons(page, ks[a], ks[b]);
        }
      }
    }
  }

  /**
   * `get_missions` lists the sections in the order in which their headers
   * first appear on the page.
   */
  lemma MissionsOfOrder(page: seq<RenderedSection>)
    requires MissionsOf(page).Some?
    ensures forall a, b :: 0 <= a < b < |MissionsOf(page).value| ==>
      OccursBefore(page, MissionsOf(page).value[a].0, MissionsOf(page).value[b].0)
  {
    if Collect(page, []).Parsed? {
      CollectFirstAppearance(page, []);
    }
  }

  /** Every block of a section has its `img` and its `a`, and every href matches. */
  predicate AllTasksParse(ts: seq<RenderedTask>) {
    forall k :: 0 <= k < |ts| ==> ParseTask(ts[k]).Parsed?
  }

  /** Every section has its header and every block of it parses. */
  predicate WellFormed(page: seq<RenderedSection>) {
    forall i :: 0 <= i < |page| ==> page[i].header.Some? && AllTasksParse(page[i].tasks)
  }

  /** The inner loop completes exactly when every block parses. */
  lemma {:induction false} ParseTasksParsedIff(ts: seq<RenderedTask>, acc: seq<Mission>)
    ensures ParseTasks(ts, acc).Parsed? <==> AllTasksParse(ts)
    decreases |ts|
  {
    if ts != [] {
      assert AllTasksParse(ts) <==> ParseTask(ts[0]).Parsed? && AllTasksParse(ts[1..]) by {
        forall k | 0 <= k < |ts[1..]| ensures ts[1..][k] == ts[k + 1] { }
        if ParseTask(ts[0]).Parsed? && AllTasksParse(ts[1..]) {
          forall k | 0 <= k < |ts| ensures ParseTask(ts[k]).Parsed? {
            if k > 0 { assert ts[k] == ts[1..][k - 1]; }
          }
        }
      }
      if ParseTask(ts[0]).Parsed? {
        ParseTasksParsedIff(ts[1..], acc + [ParseTask(ts[0]).value]);
      }
    }
  }

  /** The outer loop completes exactly when every header exists and every block parses. */
  lemma {:induction false} CollectParsedIff(page: seq<RenderedSection>, d: Dict)
    ensures Collect(page, d).Parsed? <==> WellFormed(page)
    decreases |page|
  {
    if page != [] {
      assert WellFormed(page) <==>
          page[0].header.Some? && AllTasksParse(page[0].tasks) && WellFormed(page[1..]) by {
        forall i | 0 <= i < |page[1..]| ensures page[1..][i] == page[i + 1] { }
        if page[0].header.Some? && AllTasksParse(page[0].tasks) && WellFormed(page[1..]) {
          forall i | 0 <= i < |page| ensures page[i].header.Some? && AllTasksParse(page[i].tasks) {
            if i > 0 { assert page[i] == page[1..][i - 1]; }
          }
        }
      }
      if page[0].header.Some? {
        ParseTasksParsedIff(page[0].tasks, []);
        if ParseTasks(page[0].tasks, []).Parsed? {
          CollectParsedIff(page[1..], Put(d, page[0].header.value, ParseTasks(page[0].tasks, []).value));
        }
      }
    }
  }

  /**
   * The dictionary `get_missions` returns has distinct keys. On a page whose
   * elements all exist and whose links all match, the keys are exactly the
   * page's headers; otherwise the result is empty (or the AttributeError
   * escaped).
   */
  lemma MissionsOfKeys(page: seq<RenderedSection>)
    ensures WellFormed(page) ==> MissionsOf(page).Some? && KeySet(MissionsOf(page).value) == Headers(page)
    ensures MissionsOf(page).Some? ==> Distinct(Keys(MissionsOf(page).value))
    ensures MissionsOf(page).Some? && !WellFormed(page) ==> MissionsOf(page).value == []
  {
    CollectParsedIff(page, []);
    if Collect(page, []).Parsed? {
      CollectDistinct(page, []);
      CollectKeySet(page, []);
      assert KeySet([]) == {};
    }
  }

  /**
   * The loops of `get_missions`. An element lookup that fails ends the whole
   * listing with an empty dictionary; a link the slug pattern does not match
   * raises out of it (`None` here).
   */
  method GetMissions(page: seq<RenderedSection>) returns (r: Option<Dict>)
    ensures r == MissionsOf(page)
  {
    var sectionList: Dict := [];
    var i := 0;
    while i < |page|
      invariant 0 <= i <= |page|
      invariant Collect(page, []) == Collect(page[i..], sectionList)
    {
      var section := page[i];
      assert page[i..][0] == section && page[i..][1..] == page[i + 1..];
      if section.header.None? {
        return Some([]);
      }
      var title := section.header.value;
      var taskList: seq<Mission> := [];
      var j := 0;
      while j < |section.tasks|
        invariant 0 <= j <= |section.tasks|
        invariant ParseTasks(section.tasks, []) == ParseTasks(section.tasks[j..], taskList)
      {
        var task := section.tasks[j];
        assert section.tasks[j..][0] == task && section.tasks[j..][1..] == section.tasks[j + 1..];
        if task.img.None? {
          return Some([]);
        }
        var taskTitle := task.img.value;
        if task.anchor.None? {
          return Some([]);
        }
        var href := task.anchor.value;
        var taskCode := MissionName(href);
        if taskCode.None? {
          return None;
        }
        taskList := taskList + [Mission(taskTitle, taskCode.value)];
        j := j + 1;
      }
      sectionList := Put(sectionList, title, taskList);
      i := i + 1;
    }
    return Some(sectionList);
  }
}

=== FILE: fetcher.dfy ===
/**
 * `get_solution`: read the solution editor's lines, retrying while the page is
 * still rendering. The browser is replaced by the outcome each read attempt
 * would have, and `time.sleep` by a counter of the delays taken.
 */
module Fetcher {
  import opened Wrappers

  const PageRetries: nat := 3
  /** The initial read plus `PAGE_RETRIES` retries. */
  const MaxAttempts: nat := PageRetries + 1
  const RetryDelaySecs: nat := 5

  /** One read of the editor: the lines went stale mid-read, or their texts in document order. */
  datatype ReadOutcome = Stale | Rendered(texts: seq<string>)

  /** What the page yields on each attempt the fetcher may make. */
  type PageReads = r: seq<ReadOutcome> | |r| == MaxAttempts witness [Stale, Stale, Stale, Stale]

  /** The texts of the first successful read, or `None` if every read was stale. */
  function FirstRead(outcomes: seq<ReadOutcome>): (r: Option<seq<string>>)
    ensures r.None? <==> forall k :: 0 <= k < |outcomes| ==> outcomes[k].Stale?
  {
    if outcomes == [] then None
    else match outcomes[0]
      case Rendered(texts) => Some(texts)
      case Stale => FirstRead(outcomes[1..])
  }

  /** Stale outcomes are skipped: the first rendered read is the one returned. */
  lemma {:induction false} FirstReadAfterStale(outcomes: seq<ReadOutcome>, k: nat)
    requires k < |outcomes| && outcomes[k].Rendered?
    requires forall j :: 0 <= j < k ==> outcomes[j].Stale?
    ensures FirstRead(outcomes) == Some(outcomes[k].texts)
  {
    if k > 0 {
      FirstReadAfterStale(outcomes[1..], k - 1);
    }
  }

  /**
   * The retry loop of `get_solution`. `attempts` counts the outcomes made and
   * `sleeps` the retry delays slept.
   */
  method GetSolution(outcomes: PageReads) returns (lines: Option<seq<string>>, attempts: nat, sleeps: nat)
    ensures lines == FirstRead(outcomes)
    ensures 1 <= attempts <= PageRetries + 1
    ensures forall k :: 0 <= k < attempts - 1 ==> outcomes[k].Stale?
    ensures lines.Some? ==> outcomes[attempts - 1] == Rendered(lines.value) && sleeps == attempts - 1
    ensures lines.None? ==> attempts == MaxAttempts && sleeps == MaxAttempts
  {
    attempts, sleeps := 0, 0;
    while attempts <= PageRetries
      invariant 0 <= attempts <= PageRetries + 1
      invariant sleeps == attempts
      invariant forall k :: 0 <= k < attempts ==> outcomes[k].Stale?
    {
      attempts := attempts + 1;
      match outcomes[attempts - 1]
      case Rendered(texts) =>
        FirstReadAfterStale(outcomes, attempts - 1);
        return Some(texts), attempts, sleeps;
      case Stale =>
        sleeps := sleeps + 1;
    }
    lines := None;
  }

  /** The retry scenarios: success on the third read, and a page that never settles. */
  method RetryScenarios(texts: seq<string>)
  {
    var page: PageReads := [Stale, Stale, Rendered(texts), Stale];
    var lines, attempts, sleeps := GetSolution(page);
    assert page[2].Rendered? && page[3].Stale?;
    assert lines == Some(texts) && attempts == 3 && sleeps == 2;
    lines, attempts, sleeps := GetSolution([Stale, Stale, Stale, Stale]);
    assert lines == None && attempts == 4 && sleeps == 4;
  }
}

=== FILE: file_sink.dfy ===
/**
 * `write_solution_to_file`, as a function of the file store before the call.
 *
 * The file store maps a path (its components) to the file's text. Writing a
 * file prints each line followed by a newline; reading it back splits the text
 * at newlines, as `str.splitlines` does for text whose only line break is `\n`.
 */
module FileSink {
  import opened Wrappers
  import opened Catalog
  import opened Fetcher

  type Path = seq<string>

  /** The index of the first newline of `s`, or `|s|` if there is none. */
  function LineEnd(s: string): (i: nat)
    ensures i <= |s| && '\n' !in s[..i] && (i < |s| ==> s[i] == '\n')
  {
    if s == [] || s[0] == '\n' then 0
    else
      var i := 1 + LineEnd(s[1..]);
      assert s[..i] == [s[0]] + s[1..][..i - 1];
      i
  }

  /** `text.splitlines()` for text whose line breaks are `\n`. */
  function SplitLines(s: string): (lines: seq<string>)
    ensures forall k :: 0 <= k < |lines| ==> '\n' !in lines[k]
    decreases |s|
  {
    if s == [] then []
    else
      var i := LineEnd(s);
      [s[..i]] + (if i < |s| then SplitLines(s[i + 1..]) else [])
  }

  /** The text `print(line, file=f)` leaves after each line of `lines` in turn. */
  function JoinLines(lines: seq<string>): (s: string)
    ensures lines == [] <==> s == []
  {
    if lines == [] then [] else lines[0] + "\n" + JoinLines(lines[1..])
  }

  /** Printing one more line appends it and a newline. */
  lemma {:induction false} JoinAppend(lines: seq<string>, line: string)
    ensures JoinLines(lines + [line]) == JoinLines(lines) + line + "\n"
  {
    if lines != [] {
      assert (lines + [line])[1..] == lines[1..] + [line];
      JoinAppend(lines[1..], line);
    }
  }

  /** No line contains a line break. */
  predicate NoBreaks(lines: seq<string>) {
    forall k :: 0 <= k < |lines| ==> '\n' !in lines[k]
  }

  /** Reading back what was written gives the lines that were written. */
  lemma {:induction false} SplitJoin(lines: seq<string>)
    requires NoBreaks(lines)
    ensures SplitLines(JoinLines(lines)) == lines
  {
    if lines != [] {
      var s := JoinLines(lines);
      var tail := JoinLines(lines[1..]);
      assert s == lines[0] + "\n" + tail;
      LineEndOf(lines[0], tail);
      assert s[..|lines[0]|] == lines[0];
      assert s[|lines[0]| + 1..] == tail;
      SplitJoin(lines[1..]);
    }
  }

  lemma {:induction false} LineEndOf(a: string, b: string)
    requires '\n' !in a
    ensures LineEnd(a + "\n" + b) == |a|
  {
    if a != [] {
      assert (a + "\n" + b)[1..] == a[1..] + "\n" + b;
      LineEndOf(a[1..], b);
    }
  }

  /** Printing a first line, then the rest. */
  lemma JoinLinesCons(line: string, lines: seq<string>)
    ensures JoinLines([line] + lines) == line + "\n" + JoinLines(lines)
  {
    assert ([line] + lines)[1..] == lines;
  }

  /** Reading splits off the text up to the first newline. */
  lemma SplitLinesAt(s: string)
    requires s != [] && LineEnd(s) < |s|
    ensures SplitLines(s) == [s[..LineEnd(s)]] + SplitLines(s[LineEnd(s) + 1..])
  {
  }

  /** Text is its part before a newline, the newline, and the part after it. */
  lemma CutAtBreak(s: string, i: nat)
    requires i < |s| && s[i] == '\n'
    ensures s == s[..i] + "\n" + s[i + 1..]
  {
    assert s[..i + 1] == s[..i] + "\n";
    assert s == s[..i + 1] + s[i + 1..];
  }

  /** Text ending in a newline is what writing its lines produces. */
  lemma {:induction false} JoinSplit(s: string)
    requires s == [] || s[|s| - 1] == '\n'
    ensures JoinLines(SplitLines(s)) == s
    decreases |s|
  {
    if s != [] {
      var i := LineEnd(s);
      assert i < |s| by {
        assert s[..|s|] == s;
      }
      CutAtBreak(s, i);
      var head, tail := s[..i], s[i + 1..];
      JoinSplit(tail);
      SplitLinesAt(s);
      JoinLinesCons(head, SplitLines(tail));
    }
  }


  /** The first line of a solution file: `'# "{}" downloaded: {}'.format(title, stamp)`. */
  function Header(title: string, stamp: string): string {
    "# \"" + title + "\" downloaded: " + stamp
  }

  /** The header names the mission. */
  lemma HeaderNamesMission(title: string, stamp: string)
    ensures Header(title, stamp)[3..3 + |title|] == title
  {
  }

  /** Headers written at different times differ. */
  lemma HeaderStampDiffers(title: string, stamp1: string, stamp2: string)
    requires stamp1 != stamp2
    ensures Header(title, stamp1) != Header(title, stamp2)
  {
    var p := "# \"" + title + "\" downloaded: ";
    assert Header(title, stamp1) == p + stamp1 && Header(title, stamp2) == p + stamp2;
    if |stamp1| == |stamp2| {
      var k :| 0 <= k < |stamp1| && stamp1[k] != stamp2[k];
      assert (p + stamp1)[|p| + k] != (p + stamp2)[|p| + k];
    }
  }

  /** The content to write: the header line, then the downloaded lines. */
  function Compose(title: string, stamp: string, downloaded: seq<string>): (code: seq<string>)
    ensures |code| == 1 + |downloaded|
  {
    [Header(title, stamp)] + downloaded
  }

  /** The file a mission's solution goes to. */
  function FileName(m: Mission): string {
    m.urlName + ".py"
  }

  /** What a call of `write_solution_to_file` did; `Raised()` is when it raised IOError. */
  datatype SinkOutcome = NoContent | Unchanged | Written | WriteFailed {
    predicate Raised() {
      this == NoContent || this == WriteFailed
    }
  }

  /**
   * What the outside world supplies to one call: the editor's read outcomes,
   * the capture time, and the index of the `print` that fails, if any.
   */
  datatype MissionEnv = MissionEnv(page: PageReads, stamp: string, failAt: Option<nat>)

  /** Did the download come back falsy (`None` or an empty list)? */
  predicate Falsy(downloaded: Option<seq<string>>) {
    downloaded.None? || downloaded.value == []
  }

  /** The file store, and the outcome, after one call. */
  function WriteStep(files: map<Path, string>, dir: Path, m: Mission, env: MissionEnv): (r: (map<Path, string>, SinkOutcome))
    ensures r.1.NoContent? <==> Falsy(FirstRead(env.page))
    ensures r.1.NoContent? || r.1.Unchanged? ==> r.0 == files
  {
    var downloaded := FirstRead(env.page);
    if Falsy(downloaded) then (files, NoContent)
    else
      var path := dir + [FileName(m)];
      var code := Compose(m.title, env.stamp, downloaded.value);
      if path in files && SplitLines(files[path]) == code then (files, Unchanged)
      else if env.failAt.Some? && env.failAt.value < |code| then (files - {path}, WriteFailed)
      else (files[path := JoinLines(code)], Written)
  }

  /**
   * Any existing file whose lines already equal the content is left alone,
   * whether or not it ends in a line break.
   */
  lemma WriteStepSkipsEqual(files: map<Path, string>, dir: Path, m: Mission, env: MissionEnv)
    requires !Falsy(FirstRead(env.page))
    requires dir + [FileName(m)] in files
    requires SplitLines(files[dir + [FileName(m)]]) == Compose(m.title, env.stamp, FirstRead(env.page).value)
    ensures WriteStep(files, dir, m, env) == (files, Unchanged)
  {
  }

  /** Lines of the call that can be written and read back unchanged. */
  predicate LineSafe(m: Mission, env: MissionEnv) {
    '\n' !in m.title && '\n' !in env.stamp &&
    (FirstRead(env.page).Some? ==> NoBreaks(FirstRead(env.page).value))
  }

  /**
   * After a call that did not raise, the mission's file reads back as the
   * header naming the mission followed by the downloaded lines, in order.
   */
  lemma WriteStepReadBack(files: map<Path, string>, dir: Path, m: Mission, env: MissionEnv)
    requires LineSafe(m, env)
    requires !WriteStep(files, dir, m, env).1.Raised()
    ensures dir + [FileName(m)] in WriteStep(files, dir, m, env).0
    ensures SplitLines(WriteStep(files, dir, m, env).0[dir + [FileName(m)]])
      == [Header(m.title, env.stamp)] + FirstRead(env.page).value
  {
    var code := Compose(m.title, env.stamp, FirstRead(env.page).value);
    assert NoBreaks(code) by {
      forall k | 0 <= k < |code| ensures '\n' !in code[k] {
        if k > 0 { assert code[k] == FirstRead(env.page).value[k - 1]; }
      }
    }
    SplitJoin(code);
  }

  /**
   * Writing the same content again (same download, same time stamp) is a no-op:
   * the file store is unchanged and nothing is raised, whatever would have failed.
   */
  lemma WriteStepIdempotent(files: map<Path, string>, dir: Path, m: Mission, env: MissionEnv, failAt: Option<nat>)
    requires LineSafe(m, env)
    requires !WriteStep(files, dir, m, env).1.Raised()
    ensures WriteStep(WriteStep(files, dir, m, env).0, dir, m, env.(failAt := failAt))
      == (WriteStep(files, dir, m, env).0, Unchanged)
  {
    WriteStepReadBack(files, dir, m, env);
  }

  /**
   * The same download captured at another time is written again: the header
   * differs, so the literal comparison does not skip the write.
   */
  lemma WriteStepNewStamp(files: map<Path, string>, dir: Path, m: Mission, env: MissionEnv, env2: MissionEnv)
    requires LineSafe(m, env)
    requires WriteStep(files, dir, m, env).1.Written?
    requires FirstRead(env2.page) == FirstRead(env.page) && env2.stamp != env.stamp && env2.failAt.None?
    ensures WriteStep(WriteStep(files, dir, m, env).0, dir, m, env2).1.Written?
  {
    WriteStepReadBack(files, dir, m, env);
    HeaderStampDiffers(m.title, env.stamp, env2.stamp);
    var code2 := Compose(m.title, env2.stamp, FirstRead(env.page).value);
    assert code2[0] != Header(m.title, env.stamp);
  }

  /** A failed write leaves no file behind, not even an earlier version of it. */
  lemma WriteStepFailureRemoves(files: map<Path, string>, dir: Path, m: Mission, env: MissionEnv)
    requires WriteStep(files, dir, m, env).1.WriteFailed?
    ensures dir + [FileName(m)] !in WriteStep(files, dir, m, env).0
    ensures forall p :: p in files && p != dir + [FileName(m)] ==> p in WriteStep(files, dir, m, env).0
  {
  }

  /** Only the mission's own file can change. */
  lemma WriteStepFrame(files: map<Path, string>, dir: Path, m: Mission, env: MissionEnv, p: Path)
    requires p != dir + [FileName(m)]
    ensures p in WriteStep(files, dir, m, env).0 <==> p in files
    ensures p in files ==> WriteStep(files, dir, m, env).0[p] == files[p]
  {
  }
}

=== FILE: orchestrator.dfy ===
/**
 * `download_section` and the section loop of the main program, as functions
 * of the file system before the run: the folder name of a section, the error
 * lines each section contributes, and the files it writes.
 */
module Orchestrator {
  import opened Wrappers
  import opened Catalog
  import opened Fetcher
  import opened FileSink

  /** `str.isalnum` on the ASCII letters and digits. */
  predicate IsAlnum(c: char) {
    'a' <= c <= 'z' || 'A' <= c <= 'Z' || '0' <= c <= '9'
  }

  /** Is `a` obtained from `b` by deleting characters? */
  predicate IsSubsequence(a: string, b: string)
    decreases |b|
  {
    if a == [] then true
    else if b == [] then false
    else if a[0] == b[0] then IsSubsequence(a[1..], b[1..])
    else IsSubsequence(a, b[1..])
  }

  /** `"".join(char for char in section_name if char.isalnum())`. */
  function FolderName(name: string): (r: string)
    ensures forall k :: 0 <= k < |r| ==> IsAlnum(r[k])
    ensures IsSubsequence(r, name)
    ensures |r| <= |name|
  {
    if name == [] then []
    else if IsAlnum(name[0]) then
      var r := [name[0]] + FolderName(name[1..]);
      assert r[1..] == FolderName(name[1..]);
      r
    else FolderName(name[1..])
  }

  /** A name made only of letters and digits is its own folder name. */
  lemma {:induction false} FolderNameOfAlnum(name: string)
    requires forall k :: 0 <= k < |name| ==> IsAlnum(name[k])
    ensures FolderName(name) == name
  {
    if name != [] {
      FolderNameOfAlnum(name[1..]);
    }
  }

  /** Filtering a folder name again changes nothing. */
  lemma {:induction false} FolderNameIdempotent(name: string)
    ensures FolderName(FolderName(name)) == FolderName(name)
  {
    FolderNameOfAlnum(FolderName(name));
  }

  /** The filter works character by character. */
  lemma {:induction false} FolderNameConcat(a: string, b: string)
    ensures FolderName(a + b) == FolderName(a) + FolderName(b)
  {
    if a != [] {
      assert (a + b)[0] == a[0] && (a + b)[1..] == a[1..] + b;
      FolderNameConcat(a[1..], b);
    } else {
      assert a + b == b;
    }
  }

  /** The file system: the files, the folders created, and the working directory. */
  datatype Fs = Fs(files: map<Path, string>, dirs: set<Path>, cwd: Path)

  /** What the outside world supplies to one section: whether its folder can be made, and one entry per mission. */
  datatype SectionEnv = SectionEnv(folderOk: bool, missions: seq<MissionEnv>)

  function FolderError(sectionName: string): string {
    "Unable to create folder for section: " + sectionName
  }

  function MissionError(sectionName: string, m: Mission): string {
    sectionName + ": " + m.title
  }

  const UnknownSection: string := "Unknown section containing:"

  function UnknownMission(m: Mission): string {
    "-- " + m.title
  }

  /** `create_and_switch_to_dir`: `os.makedirs('')` fails, and so does a folder the system refuses. */
  predicate FolderCreated(dirName: string, folderOk: bool) {
    dirName != [] && folderOk
  }

  /**
   * The mission loop of `download_section` over `ms` in folder `dir`: the files
   * afterwards, and one error per mission whose write raised, in mission order.
   */
  function WriteAll(files: map<Path, string>, dir: Path, sectionName: string, ms: seq<Mission>, envs: seq<MissionEnv>): (r: (map<Path, string>, seq<string>))
    requires |envs| == |ms|
    decreases |ms|
  {
    if ms == [] then (files, [])
    else
      var n := |ms| - 1;
      var prev := WriteAll(files, dir, sectionName, ms[..n], envs[..n]);
      var step := WriteStep(prev.0, dir, ms[n], envs[n]);
      (step.0, prev.1 + if step.1.Raised() then [MissionError(sectionName, ms[n])] else [])
  }

  /** `download_section(section_name, missions)`: the file system afterwards, and the errors it returns. */
  function SectionRun(fs: Fs, sectionName: string, ms: seq<Mission>, env: SectionEnv): (r: (Fs, seq<string>))
    requires |env.missions| == |ms|
    ensures r.0.cwd == fs.cwd
  {
    var dirName := FolderName(sectionName);
    if !FolderCreated(dirName, env.folderOk) then (fs, [FolderError(sectionName)])
    else
      var dir := fs.cwd + [dirName];
      var w := WriteAll(fs.files, dir, sectionName, ms, env.missions);
      (Fs(w.0, fs.dirs + {dir}, fs.cwd), w.1)
  }

  /** The lines the main loop reports for a section without a name. */
  function UnknownLines(ms: seq<Mission>): (lines: seq<string>)
    ensures |lines| == 1 + |ms| && lines[0] == UnknownSection
    ensures forall k :: 0 <= k < |ms| ==> lines[k + 1] == UnknownMission(ms[k])
  {
    if ms == [] then [UnknownSection]
    else
      var prev := UnknownLines(ms[..|ms| - 1]);
      assert ms[..|ms| - 1] + [ms[|ms| - 1]] == ms;
      prev + [UnknownMission(ms[|ms| - 1])]
  }

  /** The environment gives one entry per section and one per mission of each. */
  predicate Fits(catalog: Dict, envs: seq<SectionEnv>) {
    |envs| == |catalog| && forall i :: 0 <= i < |catalog| ==> |envs[i].missions| == |catalog[i].1|
  }

  lemma FitsPrefix(catalog: Dict, envs: seq<SectionEnv>, n: nat)
    requires Fits(catalog, envs) && n <= |catalog|
    ensures Fits(catalog[..n], envs[..n])
  {
  }

  /** One more turn of the section loop. */
  lemma ExportRunStep(fs: Fs, catalog: Dict, envs: seq<SectionEnv>, i: nat)
    requires Fits(catalog, envs) && i < |catalog|
    ensures Fits(catalog[..i], envs[..i]) && Fits(catalog[..i + 1], envs[..i + 1])
    ensures ExportRun(fs, catalog[..i + 1], envs[..i + 1]) ==
      var prev := ExportRun(fs, catalog[..i], envs[..i]);
      if catalog[i].0 == [] then (prev.0, prev.1 + UnknownLines(catalog[i].1))
      else
        var s := SectionRun(prev.0, catalog[i].0, catalog[i].1, envs[i]);
        (s.0, prev.1 + s.1)
  {
    FitsPrefix(catalog, envs, i);
    FitsPrefix(catalog, envs, i + 1);
    assert catalog[..i + 1][..i] == catalog[..i];
    assert envs[..i + 1][..i] == envs[..i];
  }

  /** The section loop of the main program over the dictionary `get_missions` returned. */
  function ExportRun(fs: Fs, catalog: Dict, envs: seq<SectionEnv>): (r: (Fs, seq<string>))
    requires Fits(catalog, envs)
    decreases |catalog|
  {
    if catalog == [] then (fs, [])
    else
      var n := |catalog| - 1;
      var prev := ExportRun(fs, catalog[..n], envs[..n]);
      var (sectionName, ms) := catalog[n];
      if sectionName == [] then (prev.0, prev.1 + UnknownLines(ms))
      else
        var s := SectionRun(prev.0, sectionName, ms, envs[n]);
        (s.0, prev.1 + s.1)
  }

  /** A section name without letters or digits has an empty folder name. */
  lemma {:induction false} FolderNameOfPunctuation(name: string)
    requires forall k :: 0 <= k < |name| ==> !IsAlnum(name[k])
    ensures FolderName(name) == []
  {
    if name != [] {
      FolderNameOfPunctuation(name[1..]);
    }
  }

  /**
   * A section whose folder cannot be made yields exactly one error naming it,
   * and no mission of it is fetched or written.
   */
  lemma SectionFolderFailure(fs: Fs, sectionName: string, ms: seq<Mission>, env: SectionEnv)
    requires |env.missions| == |ms|
    requires !FolderCreated(FolderName(sectionName), env.folderOk)
    ensures SectionRun(fs, sectionName, ms, env) == (fs, [FolderError(sectionName)])
  {
  }

  /** A named section made only of punctuation cannot get a folder: `os.makedirs('')` fails. */
  lemma PunctuationSectionFails(fs: Fs, sectionName: string, ms: seq<Mission>, env: SectionEnv)
    requires |env.missions| == |ms|
    requires forall k :: 0 <= k < |sectionName| ==> !IsAlnum(sectionName[k])
    ensures SectionRun(fs, sectionName, ms, env) == (fs, [FolderError(sectionName)])
  {
    FolderNameOfPunctuation(sectionName);
  }

  /** Never more errors than missions, and each names the section and one of its missions. */
  lemma {:induction false} WriteAllErrors(files: map<Path, string>, dir: Path, sectionName: string, ms: seq<Mission>, envs: seq<MissionEnv>)
    requires |envs| == |ms|
    ensures |WriteAll(files, dir, sectionName, ms, envs).1| <= |ms|
    ensures forall e :: e in WriteAll(files, dir, sectionName, ms, envs).1 ==>
      exists k :: 0 <= k < |ms| && e == MissionError(sectionName, ms[k])
    decreases |ms|
  {
    if ms != [] {
      var n := |ms| - 1;
      WriteAllErrors(files, dir, sectionName, ms[..n], envs[..n]);
      forall k | 0 <= k < n ensures ms[..n][k] == ms[k] { }
    }
  }

  /** When every download succeeds and no write fails, the section reports no error. */
  lemma {:induction false} WriteAllNoFailures(files: map<Path, string>, dir: Path, sectionName: string, ms: seq<Mission>, envs: seq<MissionEnv>)
    requires |envs| == |ms|
    requires forall k :: 0 <= k < |envs| ==> !Falsy(FirstRead(envs[k].page)) && envs[k].failAt.None?
    ensures WriteAll(files, dir, sectionName, ms, envs).1 == []
    decreases |ms|
  {
    if ms != [] {
      var n := |ms| - 1;
      forall k | 0 <= k < n ensures envs[..n][k] == envs[k] { }
      WriteAllNoFailures(files, dir, sectionName, ms[..n], envs[..n]);
    }
  }

  /** A mission whose download came back falsy always has its error in the list. */
  lemma {:induction false} WriteAllReportsFalsy(files: map<Path, string>, dir: Path, sectionName: string, ms: seq<Mission>, envs: seq<MissionEnv>, k: nat)
    requires |envs| == |ms| && k < |ms|
    requires Falsy(FirstRead(envs[k].page))
    ensures MissionError(sectionName, ms[k]) in WriteAll(files, dir, sectionName, ms, envs).1
    decreases |ms|
  {
    var n := |ms| - 1;
    if k < n {
      assert ms[..n][k] == ms[k] && envs[..n][k] == envs[k];
      WriteAllReportsFalsy(files, dir, sectionName, ms[..n], envs[..n], k);
    }
  }

  /** When no download succeeds, nothing is written and every mission is reported, in order. */
  lemma {:induction false} WriteAllNothingDownloaded(files: map<Path, string>, dir: Path, sectionName: string, ms: seq<Mission>, envs: seq<MissionEnv>)
    requires |envs| == |ms|
    requires forall k :: 0 <= k < |envs| ==> Falsy(FirstRead(envs[k].page))
    ensures WriteAll(files, dir, sectionName, ms, envs)
      == (files, seq(|ms|, k requires 0 <= k < |ms| => MissionError(sectionName, ms[k])))
    decreases |ms|
  {
    if ms != [] {
      var n := |ms| - 1;
      forall k | 0 <= k < n ensures envs[..n][k] == envs[k] { }
      WriteAllNothingDownloaded(files, dir, sectionName, ms[..n], envs[..n]);
      var prev := seq(n, k requires 0 <= k < n => MissionError(sectionName, ms[..n][k]));
      assert WriteAll(files, dir, sectionName, ms[..n], envs[..n]) == (files, prev);
      assert WriteStep(files, dir, ms[n], envs[n]) == (files, NoContent);
      var all := seq(|ms|, k requires 0 <= k < |ms| => MissionError(sectionName, ms[k]));
      assert prev + [MissionError(sectionName, ms[n])] == all;
      assert WriteAll(files, dir, sectionName, ms, envs) == (files, prev + [MissionError(sectionName, ms[n])]);
    } else {
      assert seq(|ms|, k requires 0 <= k < |ms| => MissionError(sectionName, ms[k])) == [];
    }
  }

  lemma PrefixTransitive(a: seq<string>, b: seq<string>, c: seq<string>)
    requires a <= b && b <= c
    ensures a <= c
  {
    assert c[..|b|][..|a|] == c[..|a|];
  }

  /** One more mission only appends to the errors. */
  lemma WriteAllExtends(files: map<Path, string>, dir: Path, sectionName: string, ms: seq<Mission>, envs: seq<MissionEnv>)
    requires |envs| == |ms| && ms != []
    ensures WriteAll(files, dir, sectionName, ms[..|ms| - 1], envs[..|ms| - 1]).1 <= WriteAll(files, dir, sectionName, ms, envs).1
  {
  }

  /** Did the call for mission `k` raise, given the files the earlier missions left? */
  predicate StepRaised(files: map<Path, string>, dir: Path, sectionName: string, ms: seq<Mission>, envs: seq<MissionEnv>, k: nat)
    requires |envs| == |ms| && k < |ms|
  {
    WriteStep(WriteAll(files, dir, sectionName, ms[..k], envs[..k]).0, dir, ms[k], envs[k]).1.Raised()
  }

  /** Dropping the last mission changes no earlier step. */
  lemma StepRaisedPrefix(files: map<Path, string>, dir: Path, sectionName: string, ms: seq<Mission>, envs: seq<MissionEnv>, k: nat)
    requires |envs| == |ms| && k < |ms| - 1
    ensures StepRaised(files, dir, sectionName, ms[..|ms| - 1], envs[..|ms| - 1], k) == StepRaised(files, dir, sectionName, ms, envs, k)
  {
    var n := |ms| - 1;
    assert ms[..n][..k] == ms[..k] && envs[..n][..k] == envs[..k];
    assert ms[..n][k] == ms[k] && envs[..n][k] == envs[k];
  }

  /** Every mission whose call raised, a failed print included, has its error in the list. */
  lemma {:induction false} WriteAllReportsRaised(files: map<Path, string>, dir: Path, sectionName: string, ms: seq<Mission>, envs: seq<MissionEnv>, k: nat)
    requires |envs| == |ms| && k < |ms|
    requires StepRaised(files, dir, sectionName, ms, envs, k)
    ensures MissionError(sectionName, ms[k]) in WriteAll(files, dir, sectionName, ms, envs).1
    decreases |ms|
  {
    var n := |ms| - 1;
    if k < n {
      StepRaisedPrefix(files, dir, sectionName, ms, envs, k);
      WriteAllReportsRaised(files, dir, sectionName, ms[..n], envs[..n], k);
      assert ms[..n][k] == ms[k];
      WriteAllExtends(files, dir, sectionName, ms, envs);
    } else {
      assert ms[..k] == ms[..n] && envs[..k] == envs[..n];
    }
  }

  /** When no call raises, whatever was skipped or written, the section reports no error. */
  lemma {:induction false} WriteAllNoRaise(files: map<Path, string>, dir: Path, sectionName: string, ms: seq<Mission>, envs: seq<MissionEnv>)
    requires |envs| == |ms|
    requires forall k :: 0 <= k < |ms| ==> !StepRaised(files, dir, sectionName, ms, envs, k)
    ensures WriteAll(files, dir, sectionName, ms, envs).1 == []
    decreases |ms|
  {
    if ms != [] {
      var n := |ms| - 1;
      forall k | 0 <= k < n ensures !StepRaised(files, dir, sectionName, ms[..n], envs[..n], k) {
        StepRaisedPrefix(files, dir, sectionName, ms, envs, k);
      }
      WriteAllNoRaise(files, dir, sectionName, ms[..n], envs[..n]);
      assert !StepRaised(files, dir, sectionName, ms, envs, n);
    }
  }

  /**
   * One more turn of the mission loop: mission `k` adds its error exactly
   * when its call raised, and nothing otherwise.
   */
  lemma WriteAllStep(files: map<Path, string>, dir: Path, sectionName: string, ms: seq<Mission>, envs: seq<MissionEnv>, k: nat)
    requires |envs| == |ms| && k < |ms|
    ensures WriteAll(files, dir, sectionName, ms[..k + 1], envs[..k + 1]).1 ==
      WriteAll(files, dir, sectionName, ms[..k], envs[..k]).1 +
      if StepRaised(files, dir, sectionName, ms, envs, k) then [MissionError(sectionName, ms[k])] else []
  {
    var msk, envsk := ms[..k + 1], envs[..k + 1];
    assert msk[..k] == ms[..k] && envsk[..k] == envs[..k];
    assert msk[k] == ms[k] && envsk[k] == envs[k];
  }

  /** The indices of the missions whose call raised. */
  function RaisedIndices(files: map<Path, string>, dir: Path, sectionName: string, ms: seq<Mission>, envs: seq<MissionEnv>): set<nat>
    requires |envs| == |ms|
  {
    set k: nat | k < |ms| && StepRaised(files, dir, sectionName, ms, envs, k)
  }

  /** The last mission adds its error exactly when its call raised. */
  lemma WriteAllLast(files: map<Path, string>, dir: Path, sectionName: string, ms: seq<Mission>, envs: seq<MissionEnv>)
    requires |envs| == |ms| && ms != []
    ensures WriteAll(files, dir, sectionName, ms, envs).1 ==
      WriteAll(files, dir, sectionName, ms[..|ms| - 1], envs[..|ms| - 1]).1 +
      if StepRaised(files, dir, sectionName, ms, envs, |ms| - 1) then [MissionError(sectionName, ms[|ms| - 1])] else []
  {
  }

  lemma RaisedIndicesLast(files: map<Path, string>, dir: Path, sectionName: string, ms: seq<Mission>, envs: seq<MissionEnv>)
    requires |envs| == |ms| && ms != []
    ensures RaisedIndices(files, dir, sectionName, ms, envs) ==
      RaisedIndices(files, dir, sectionName, ms[..|ms| - 1], envs[..|ms| - 1]) +
      if StepRaised(files, dir, sectionName, ms, envs, |ms| - 1) then {|ms| - 1} else {}
  {
    var n := |ms| - 1;
    forall k: nat | k < n ensures StepRaised(files, dir, sectionName, ms[..n], envs[..n], k) == StepRaised(files, dir, sectionName, ms, envs, k) {
      StepRaisedPrefix(files, dir, sectionName, ms, envs, k);
    }
  }

  /** There are exactly as many errors as missions whose call raised. */
  lemma {:induction false} WriteAllCount(files: map<Path, string>, dir: Path, sectionName: string, ms: seq<Mission>, envs: seq<MissionEnv>)
    requires |envs| == |ms|
    ensures |WriteAll(files, dir, sectionName, ms, envs).1| == |RaisedIndices(files, dir, sectionName, ms, envs)|
    decreases |ms|
  {
    if ms == [] {
      assert RaisedIndices(files, dir, sectionName, ms, envs) == {};
    } else {
      var n := |ms| - 1;
      WriteAllCount(files, dir, sectionName, ms[..n], envs[..n]);
      WriteAllLast(files, dir, sectionName, ms, envs);
      RaisedIndicesLast(files, dir, sectionName, ms, envs);
      assert n !in RaisedIndices(files, dir, sectionName, ms[..n], envs[..n]);
    }
  }

  /** Errors come in mission order: the errors of the first `k` missions begin the list. */
  lemma {:induction false} WriteAllErrorsInOrder(files: map<Path, string>, dir: Path, sectionName: string, ms: seq<Mission>, envs: seq<MissionEnv>, k: nat)
    requires |envs| == |ms| && k <= |ms|
    ensures WriteAll(files, dir, sectionName, ms[..k], envs[..k]).1 <= WriteAll(files, dir, sectionName, ms, envs).1
    decreases |ms|, 1
  {
    if k < |ms| {
      ErrorsInOrderStep(files, dir, sectionName, ms, envs, k);
    } else {
      assert ms[..k] == ms && envs[..k] == envs;
    }
  }

  lemma {:induction false} ErrorsInOrderStep(files: map<Path, string>, dir: Path, sectionName: string, ms: seq<Mission>, envs: seq<MissionEnv>, k: nat)
    requires |envs| == |ms| && k < |ms|
    ensures WriteAll(files, dir, sectionName, ms[..k], envs[..k]).1 <= WriteAll(files, dir, sectionName, ms, envs).1
    decreases |ms|, 0
  {
    var n := |ms| - 1;
    var msk, envsk := ms[..n][..k], envs[..n][..k];
    assert msk == ms[..k] && envsk == envs[..k];
    WriteAllErrorsInOrder(files, dir, sectionName, ms[..n], envs[..n], k);
    WriteAllExtends(files, dir, sectionName, ms, envs);
    var first := WriteAll(files, dir, sectionName, msk, envsk).1;
    var middle := WriteAll(files, dir, sectionName, ms[..n], envs[..n]).1;
    PrefixTransitive(first, middle, WriteAll(files, dir, sectionName, ms, envs).1);
  }

  /** Is `p` a file directly inside folder `dir`? */
  predicate InFolder(p: Path, dir: Path) {
    |p| == |dir| + 1 && p[..|dir|] == dir
  }

  /** The mission loop touches no file outside the section's folder. */
  lemma {:induction false} WriteAllFrame(files: map<Path, string>, dir: Path, sectionName: string, ms: seq<Mission>, envs: seq<MissionEnv>, p: Path)
    requires |envs| == |ms|
    requires !InFolder(p, dir)
    ensures p in WriteAll(files, dir, sectionName, ms, envs).0 <==> p in files
    ensures p in files ==> WriteAll(files, dir, sectionName, ms, envs).0[p] == files[p]
    decreases |ms|
  {
    if ms != [] {
      var n := |ms| - 1;
      WriteAllFrame(files, dir, sectionName, ms[..n], envs[..n], p);
      assert (dir + [FileName(ms[n])])[..|dir|] == dir;
      WriteStepFrame(WriteAll(files, dir, sectionName, ms[..n], envs[..n]).0, dir, ms[n], envs[n], p);
    }
  }

  /** Every file the mission loop creates is the file of one of the section's missions. */
  lemma {:induction false} WriteAllNewFiles(files: map<Path, string>, dir: Path, sectionName: string, ms: seq<Mission>, envs: seq<MissionEnv>, p: Path)
    requires |envs| == |ms|
    requires p in WriteAll(files, dir, sectionName, ms, envs).0 && p !in files
    ensures exists k :: 0 <= k < |ms| && p == dir + [FileName(ms[k])]
    decreases |ms|
  {
    var n := |ms| - 1;
    var prev := WriteAll(files, dir, sectionName, ms[..n], envs[..n]).0;
    if p == dir + [FileName(ms[n])] {
    } else {
      WriteStepFrame(prev, dir, ms[n], envs[n], p);
      WriteAllNewFiles(files, dir, sectionName, ms[..n], envs[..n], p);
      var k :| 0 <= k < n && p == dir + [FileName(ms[..n][k])];
      assert ms[..n][k] == ms[k];
    }
  }

  /** The main loop leaves the working directory where it found it. */
  lemma {:induction false} ExportKeepsCwd(fs: Fs, catalog: Dict, envs: seq<SectionEnv>)
    requires Fits(catalog, envs)
    ensures ExportRun(fs, catalog, envs).0.cwd == fs.cwd
    decreases |catalog|
  {
    if catalog != [] {
      var n := |catalog| - 1;
      assert Fits(catalog[..n], envs[..n]);
      ExportKeepsCwd(fs, catalog[..n], envs[..n]);
    }
  }

  /**
   * Every file the export creates is, for some section with a name, the file
   * of one of its missions inside that section's folder: sections without a
   * name never cause a write.
   */
  lemma {:induction false} ExportNewFiles(fs: Fs, catalog: Dict, envs: seq<SectionEnv>, p: Path)
    requires Fits(catalog, envs)
    requires p in ExportRun(fs, catalog, envs).0.files && p !in fs.files
    ensures exists i, k :: (0 <= i < |catalog| && catalog[i].0 != [] && 0 <= k < |catalog[i].1| &&
                            p == fs.cwd + [FolderName(catalog[i].0)] + [FileName(catalog[i].1[k])])
    decreases |catalog|
  {
    var n := |catalog| - 1;
    assert Fits(catalog[..n], envs[..n]);
    var prev := ExportRun(fs, catalog[..n], envs[..n]);
    ExportKeepsCwd(fs, catalog[..n], envs[..n]);
    var (sectionName, ms) := catalog[n];
    if p in prev.0.files {
      ExportNewFiles(fs, catalog[..n], envs[..n], p);
      var i, k :| 0 <= i < n && catalog[..n][i].0 != [] && 0 <= k < |catalog[..n][i].1| &&
        p == fs.cwd + [FolderName(catalog[..n][i].0)] + [FileName(catalog[..n][i].1[k])];
      assert catalog[..n][i] == catalog[i];
    } else {
      assert sectionName != [];
      var dirName := FolderName(sectionName);
      assert FolderCreated(dirName, envs[n].folderOk);
      var dir := fs.cwd + [dirName];
      WriteAllNewFiles(prev.0.files, dir, sectionName, ms, envs[n].missions, p);
      var k :| 0 <= k < |ms| && p == dir + [FileName(ms[k])];
      assert catalog[n].0 != [] && 0 <= k < |catalog[n].1| &&
        p == fs.cwd + [FolderName(catalog[n].0)] + [FileName(catalog[n].1[k])];
    }
  }

  /**
   * A section without a name adds exactly one header line and one line per
   * mission to the report, and changes nothing on disk.
   */
  lemma UnknownSectionReported(fs: Fs, catalog: Dict, envs: seq<SectionEnv>, ms: seq<Mission>, env: SectionEnv)
    requires Fits(catalog, envs) && |env.missions| == |ms|
    ensures Fits(catalog + [([], ms)], envs + [env])
    ensures ExportRun(fs, catalog + [([], ms)], envs + [env]).0 == ExportRun(fs, catalog, envs).0
    ensures |ExportRun(fs, catalog + [([], ms)], envs + [env]).1| == |ExportRun(fs, catalog, envs).1| + 1 + |ms|
    ensures ExportRun(fs, catalog + [([], ms)], envs + [env]).1[..|ExportRun(fs, catalog, envs).1|]
      == ExportRun(fs, catalog, envs).1
    ensures ExportRun(fs, catalog + [([], ms)], envs + [env]).1 == ExportRun(fs, catalog, envs).1 + UnknownLines(ms)
  {
    var c' := catalog + [([], ms)];
    var e' := envs + [env];
    assert c'[..|catalog|] == catalog && e'[..|envs|] == envs;
    assert Fits(c', e') by {
      forall i | 0 <= i < |c'| ensures |e'[i].missions| == |c'[i].1| {
        if i < |catalog| { assert c'[i] == catalog[i] && e'[i] == envs[i]; }
      }
    }
    var before := ExportRun(fs, catalog, envs).1;
    assert ExportRun(fs, c', e').1 == before + UnknownLines(ms);
    assert (before + UnknownLines(ms))[..|before|] == before;
  }

  /** The "Basics" half of the end-to-end run below. */
  lemma ScenarioBasics(stamp: string, page: PageReads)
    requires page[0] == Rendered(["a=1", "b=2"])
    ensures SectionRun(Fs(map[], {}, []), "Basics", [Mission("Add", "add")], SectionEnv(true, [MissionEnv(page, stamp, None)]))
      == (Fs(map[["Basics", "add.py"] := JoinLines([Header("Add", stamp), "a=1", "b=2"])], {["Basics"]}, []), [])
  {
    var add := Mission("Add", "add");
    var env := MissionEnv(page, stamp, None);
    FolderNameOfAlnum("Basics");
    FirstReadAfterStale(page, 0);
    assert FileName(add) == "add.py";
    assert ["Basics"] + [FileName(add)] == ["Basics", "add.py"];
    assert FirstRead(env.page) == Some(["a=1", "b=2"]);
    var code := Compose("Add", stamp, ["a=1", "b=2"]);
    assert code == [Header("Add", stamp), "a=1", "b=2"];
    var files := map[["Basics", "add.py"] := JoinLines(code)];
    assert WriteStep(map[], ["Basics"], add, env) == (files, Written);
    var step := WriteStep(WriteAll(map[], ["Basics"], "Basics", [add][..0], [env][..0]).0, ["Basics"], [add][0], [env][0]);
    assert step == (files, Written);
    assert [add][..0] == [] && [env][..0] == [];
    assert WriteAll(map[], ["Basics"], "Basics", [], []) == (map[], []);
    assert WriteAll(map[], ["Basics"], "Basics", [add], [env]).0 == files;
    assert WriteAll(map[], ["Basics"], "Basics", [add], [env]).1 == [];
    assert [] + [FolderName("Basics")] == ["Basics"];
    assert FolderCreated(FolderName("Basics"), true);
    var sr := SectionRun(Fs(map[], {}, []), "Basics", [add], SectionEnv(true, [env]));
    assert sr.1 == [];
    assert sr.0.files == files;
    assert sr.0.dirs == {["Basics"]};
  }

  /** The report line of the "Mystery" mission of the run below. */
  lemma MysteryLine(m: Mission)
    requires m.title == "Mystery"
    ensures UnknownMission(m) == "-- Mystery"
  {
  }

  /**
   * End to end: a "Basics" section with mission "Add" whose editor shows two
   * lines, then a section without a name holding "Mystery". Starting from an
   * empty destination, the run creates Basics/add.py holding the header and
   * the two lines, and reports the unknown section and its one mission.
   */
  lemma ExportScenario(stamp: string, page: PageReads, catalog: Dict, envs: seq<SectionEnv>)
    requires page[0] == Rendered(["a=1", "b=2"])
    requires catalog == [("Basics", [Mission("Add", "add")]), ("", [Mission("Mystery", "myst")])]
    requires |envs| == 2 && envs[0] == SectionEnv(true, [MissionEnv(page, stamp, None)]) && |envs[1].missions| == 1
    ensures Fits(catalog, envs)
    ensures ExportRun(Fs(map[], {}, []), catalog, envs)
      == (Fs(map[["Basics", "add.py"] := JoinLines([Header("Add", stamp), "a=1", "b=2"])], {["Basics"]}, []),
          ["Unknown section containing:", "-- Mystery"])
  {
    assert Fits(catalog, envs) by {
      assert |envs[0].missions| == |catalog[0].1| && |envs[1].missions| == |catalog[1].1|;
    }
    var fs := Fs(map[], {}, []);
    var after := Fs(map[["Basics", "add.py"] := JoinLines([Header("Add", stamp), "a=1", "b=2"])], {["Basics"]}, []);
    ScenarioBasics(stamp, page);
    var first, firstEnvs := catalog[..1], envs[..1];
    assert first == [("Basics", [Mission("Add", "add")])] && firstEnvs == [envs[0]];
    assert first[..0] == [] && firstEnvs[..0] == [];
    assert Fits(first, firstEnvs);
    assert ExportRun(fs, [], []) == (fs, []);
    assert ExportRun(fs, first, firstEnvs) == (after, []);
    var mystery := Mission("Mystery", "myst");
    assert [mystery][..0] == [];
    MysteryLine(mystery);
    var lines := UnknownLines([mystery]);
    assert lines == ["Unknown section containing:", "-- Mystery"];
    assert catalog[1] == ("", [mystery]);
    var r := ExportRun(fs, catalog, envs);
    assert r.0 == after;
    assert r.1 == [] + lines;
    assert [] + lines == lines;
    assert r == (after, ["Unknown section containing:", "-- Mystery"]);
  }
}

=== FILE: scraper.dfy ===
/**
 * The steps of the scraper that change the file system, on an object holding
 * its state: the files, the folders created so far and the working directory.
 * Each method is proved to leave the state that the specification functions
 * of FileSink and Orchestrator describe.
 */
module Scraper {
  import opened Wrappers
  import opened Catalog
  import opened Fetcher
  import opened FileSink
  import opened Orchestrator

  /** The lines the main loop appends for a section without a name. */
  method ReportUnknown(missions: seq<Mission>) returns (lines: seq<string>)
    ensures lines == UnknownLines(missions)
  {
    lines := [UnknownSection];
    var j := 0;
    while j < |missions|
      invariant 0 <= j <= |missions|
      invariant lines == UnknownLines(missions[..j])
    {
      assert missions[..j + 1][..j] == missions[..j];
      lines := lines + [UnknownMission(missions[j])];
      j := j + 1;
    }
    assert missions[..j] == missions;
  }

  class FileSystem {
    var files: map<Path, string>
    var dirs: set<Path>
    var cwd: Path

    function State(): Fs
      reads this
    {
      Fs(files, dirs, cwd)
    }

    constructor (fs: Fs)
      ensures State() == fs
    {
      files, dirs, cwd := fs.files, fs.dirs, fs.cwd;
    }

    /** `create_and_switch_to_dir`: make the folder (if absent) and enter it, or report IOError. */
    method CreateAndSwitch(dirPath: string, folderOk: bool) returns (ok: bool)
      modifies this
      ensures ok == FolderCreated(dirPath, folderOk)
      ensures files == old(files)
      ensures ok ==> dirs == old(dirs) + {old(cwd) + [dirPath]} && cwd == old(cwd) + [dirPath]
      ensures !ok ==> dirs == old(dirs) && cwd == old(cwd)
    {
      if dirPath == [] || !folderOk {
        return false;
      }
      dirs := dirs + {cwd + [dirPath]};
      cwd := cwd + [dirPath];
      ok := true;
    }

    /**
     * `write_solution_to_file`: fetch the solution, compose the file, skip the
     * write when the file already holds exactly that content, otherwise print
     * it line by line and remove the file if a print fails.
     */
    method WriteSolution(m: Mission, env: MissionEnv) returns (out: SinkOutcome)
      modifies this`files
      ensures (files, out) == WriteStep(old(files), cwd, m, env)
    {
      var downloaded, attempts, sleeps := GetSolution(env.page);
      if downloaded.None? || downloaded.value == [] {
        return NoContent;
      }
      var code := [Header(m.title, env.stamp)];
      code := code + downloaded.value;
      var filename := FileName(m);
      var path := cwd + [filename];

      if path in files && SplitLines(files[path]) == code {
        return Unchanged;
      }

      files := files[path := []];
      var i := 0;
      while i < |code|
        invariant 0 <= i <= |code|
        invariant files == old(files)[path := JoinLines(code[..i])]
        invariant env.failAt.None? || env.failAt.value >= i
      {
        if env.failAt == Some(i) {
          files := files - {path};
          assert files == old(files) - {path};
          return WriteFailed;
        }
        JoinAppend(code[..i], code[i]);
        assert code[..i + 1] == code[..i] + [code[i]];
        files := files[path := files[path] + code[i] + "\n"];
        i := i + 1;
      }
      assert code[..i] == code;
      out := Written;
    }

    /**
     * `download_section`: make the section's folder, write each mission's
     * solution into it, collect one error per mission that raised, and go
     * back to the original folder.
     */
    method DownloadSection(sectionName: string, missions: seq<Mission>, env: SectionEnv) returns (errors: seq<string>)
      requires |env.missions| == |missions|
      modifies this
      ensures (State(), errors) == SectionRun(old(State()), sectionName, missions, env)
    {
      var originalDir := cwd;
      var dirName := FolderName(sectionName);
      var ok := CreateAndSwitch(dirName, env.folderOk);
      if !ok {
        return [FolderError(sectionName)];
      }
      errors := [];
      var i := 0;
      while i < |missions|
        invariant 0 <= i <= |missions|
        invariant cwd == originalDir + [dirName] && dirs == old(dirs) + {cwd}
        invariant (files, errors) == WriteAll(old(files), cwd, sectionName, missions[..i], env.missions[..i])
      {
        assert missions[..i + 1][..i] == missions[..i];
        assert env.missions[..i + 1][..i] == env.missions[..i];
        ghost var next := WriteAll(old(files), cwd, sectionName, missions[..i + 1], env.missions[..i + 1]);
        ghost var step := WriteStep(files, cwd, missions[i], env.missions[i]);
        assert next.0 == step.0;
        ghost var before := errors;
        assert next.1 == before + if step.1.Raised() then [MissionError(sectionName, missions[i])] else [];
        var out := WriteSolution(missions[i], env.missions[i]);
        assert files == next.0;
        assert out == step.1;
        if out.Raised() {
          errors := errors + [MissionError(sectionName, missions[i])];
        }
        assert errors == next.1;
        assert (files, errors) == next;
        i := i + 1;
      }
      assert missions[..i] == missions && env.missions[..i] == env.missions;
      cwd := originalDir;
    }

    /**
     * One turn of the section loop: a section without a name is reported
     * mission by mission, every other one is downloaded.
     */
    method ExportSection(sectionName: string, missions: seq<Mission>, env: SectionEnv) returns (errors: seq<string>)
      requires |env.missions| == |missions|
      modifies this
      ensures (State(), errors) ==
        if sectionName == [] then (old(State()), UnknownLines(missions))
        else SectionRun(old(State()), sectionName, missions, env)
    {
      if sectionName == [] {
        errors := ReportUnknown(missions);
      } else {
        errors := DownloadSection(sectionName, missions, env);
      }
    }

    /** The section loop of the main program, over the dictionary `get_missions` returned. */
    method Export(catalog: Dict, envs: seq<SectionEnv>) returns (errors: seq<string>)
      requires Fits(catalog, envs)
      modifies this
      ensures (State(), errors) == ExportRun(old(State()), catalog, envs)
    {
      ghost var start := State();
      errors := [];
      var i := 0;
      while i < |catalog|
        invariant 0 <= i <= |catalog|
        invariant Fits(catalog[..i], envs[..i])
        invariant (State(), errors) == ExportRun(start, catalog[..i], envs[..i])
      {
        ExportRunStep(start, catalog, envs, i);
        var (sectionName, missionList) := catalog[i];
        var sectionErrors := ExportSection(sectionName, missionList, envs[i]);
        errors := errors + sectionErrors;
        i := i + 1;
      }
      assert catalog[..i] == catalog && envs[..i] == envs;
    }
  }
}

=== FILE: url_patterns.dfy ===
/**
 * The two URL patterns of the scraper, `USERNAME_PATTERN` and
 * `MISSION_NAME_PATTERN`, used with `re.match`: a fixed prefix followed by the
 * named group `(?P<...>.*?)` and a closing `/`.
 *
 * `re.match` anchors at the start of the string only. In the prefix, every
 * character is literal except `.`, which is a regular-expression wildcard for
 * any character but a newline. The lazy group `.*?` followed by `/` captures
 * the characters up to the first `/`; since `.` never matches a newline, there
 * is no match when a newline comes before that `/`.
 */
module UrlPatterns {
  import opened Wrappers

  /** The pattern text before the named group of `USERNAME_PATTERN`. */
  const UserPrefix: string := "https://checkio.org/user/"
  /** The pattern text before the named group of `MISSION_NAME_PATTERN`. */
  const MissionPrefix: string := "https://checkio.org/mission/"

  const UserPage: string := "https://checkio.org/user/"
  const LoginPage: string := "https://checkio.org/profile/login/"

  /** `MISSIONS_PAGE.format(name=...)`. */
  function MissionsPage(name: string): string {
    UserPage + name + "/list/"
  }

  /** `SOLUTION_PAGE.format(name=...)`. */
  function SolutionPage(name: string): string {
    "https://checkio.org/mission/" + name + "/solve/"
  }

  /** Does the pattern character `p` match the text character `c`? */
  predicate CharMatches(p: char, c: char) {
    if p == '.' then c != '\n' else c == p
  }

  /** Does the pattern prefix `pat` match the start of `s`? */
  predicate PrefixMatches(pat: string, s: string) {
    |pat| <= |s| && forall i :: 0 <= i < |pat| ==> CharMatches(pat[i], s[i])
  }

  /** The group `(.*?)/`: the text before the first `/`, if no newline precedes it. */
  function Segment(s: string): (r: Option<string>)
    ensures r.Some? ==> |r.value| < |s| && s[..|r.value|] == r.value && s[|r.value|] == '/'
    ensures r.Some? ==> '/' !in r.value && '\n' !in r.value
  {
    if s == [] then None
    else if s[0] == '/' then Some([])
    else if s[0] == '\n' then None
    else match Segment(s[1..])
      case None => None
      case Some(t) => Some([s[0]] + t)
  }

  /** `re.match(prefix + r'(?P<g>.*?)/', url).group('g')`, with `None` for no match. */
  function Extract(pat: string, url: string): (r: Option<string>)
    ensures r.Some? ==> PrefixMatches(pat, url)
    ensures r.Some? ==> |pat| + |r.value| < |url| && url[|pat|..|pat| + |r.value|] == r.value && url[|pat| + |r.value|] == '/'
  {
    if PrefixMatches(pat, url) then Segment(url[|pat|..]) else None
  }

  /** `get_username` on the browser's current URL after loading the profile root. */
  function GetUsername(currentUrl: string): (r: Option<string>)
    ensures r.Some? ==> '/' !in r.value && '\n' !in r.value
  {
    Extract(UserPrefix, currentUrl)
  }

  /** The mission slug `get_missions` takes out of a mission link. */
  function MissionName(href: string): (r: Option<string>)
    ensures r.Some? ==> '/' !in r.value && '\n' !in r.value
  {
    Extract(MissionPrefix, href)
  }

  /** There is no match exactly when every `/` has a newline before it (or there is none). */
  lemma {:induction false} SegmentNone(s: string)
    ensures Segment(s).None? <==> forall j :: 0 <= j < |s| && s[j] == '/' ==> '\n' in s[..j]
  {
    if s == [] {
    } else if s[0] == '/' {
      assert s[0] == '/' && '\n' !in s[..0];
    } else if s[0] == '\n' {
      forall j | 0 <= j < |s| && s[j] == '/' ensures '\n' in s[..j] {
        assert s[..j][0] == '\n';
      }
    } else {
      SegmentNone(s[1..]);
      if Segment(s[1..]).None? {
        forall j | 0 <= j < |s| && s[j] == '/' ensures '\n' in s[..j] {
          assert j > 0;
          assert s[1..][j - 1] == '/';
          assert '\n' in s[1..][..j - 1];
          assert s[1..][..j - 1] == s[..j][1..];
        }
      } else {
        var t := Segment(s[1..]).value;
        var j := |t| + 1;
        assert s[j] == '/';
        assert s[..j] == [s[0]] + t;
      }
    }
  }

  /** The group captures exactly the text between the prefix and the first `/`. */
  lemma {:induction false} SegmentOf(t: string, tail: string)
    requires '/' !in t && '\n' !in t
    ensures Segment(t + "/" + tail) == Some(t)
  {
    if t == [] {
      assert (t + "/" + tail)[0] == '/';
    } else {
      var s := t + "/" + tail;
      assert s[0] == t[0];
      assert s[1..] == t[1..] + "/" + tail;
      SegmentOf(t[1..], tail);
      assert [t[0]] + t[1..] == t;
    }
  }

  /** Every pattern prefix matches its own text (a `.` matches a literal dot). */
  lemma PrefixMatchesItself(pat: string, rest: string)
    ensures PrefixMatches(pat, pat + rest)
  {
    forall i | 0 <= i < |pat| ensures CharMatches(pat[i], (pat + rest)[i]) {
      assert (pat + rest)[i] == pat[i];
    }
  }

  /** Extraction round trip: the URL built from a segment gives that segment back. */
  lemma {:induction false} ExtractOf(pat: string, t: string, tail: string)
    requires '/' !in t && '\n' !in t
    ensures Extract(pat, pat + t + "/" + tail) == Some(t)
  {
    var url := pat + t + "/" + tail;
    PrefixMatchesItself(pat, t + "/" + tail);
    assert url == pat + (t + "/" + tail);
    assert url[|pat|..] == t + "/" + tail;
    SegmentOf(t, tail);
  }

  /** The user's listing page carries the username that `get_username` reads. */
  lemma UsernameOfMissionsPage(name: string)
    requires '/' !in name && '\n' !in name
    ensures GetUsername(MissionsPage(name)) == Some(name)
  {
    assert MissionsPage(name) == UserPrefix + name + "/" + "list/";
    ExtractOf(UserPrefix, name, "list/");
  }

  /** The solution page built from a slug gives that slug back. */
  lemma MissionNameOfSolutionPage(slug: string)
    requires '/' !in slug && '\n' !in slug
    ensures MissionName(SolutionPage(slug)) == Some(slug)
  {
    assert SolutionPage(slug) == MissionPrefix + slug + "/" + "solve/";
    ExtractOf(MissionPrefix, slug, "solve/");
  }

  /** A redirect to the login page yields no username. */
  lemma LoginPageHasNoUser(rest: string)
    ensures GetUsername(LoginPage + rest).None?
  {
    var url := LoginPage + rest;
    assert url[20] == 'p' && UserPrefix[20] == 'u';
  }

  /** The unescaped `.` of `checkio.org` accepts any other non-newline character. */
  lemma DotIsWildcard(c: char, name: string)
    requires c != '\n' && '/' !in name && '\n' !in name
    ensures GetUsername("https://checkio" + [c] + "org/user/" + name + "/").Some?
  {
    var url := "https://checkio" + [c] + "org/user/" + name + "/";
    assert url[..|UserPrefix|] == "https://checkio" + [c] + "org/user/";
    assert PrefixMatches(UserPrefix, url);
    assert url[|UserPrefix|..] == name + "/" + "";
    SegmentOf(name, "");
  }
}

=== FILE: wrappers.dfy ===
/** The optional value that stands for Python's `None` in this model. */
module Wrappers {

  datatype Option<+T> = None | Some(value: T)
}
